=== FILE: README.md ===
# CpG likelihood matrix: a Dafny model of the CIGAR walk

`create_cpg_matrix.c` builds a reads × CpG-sites matrix of methylation
likelihoods. For every alignment returned by a region query that carries both the MM
and the ML tag, it walks the read's CIGAR with two counters, the reference position and the read offset.
It looks up every aligned reference base in the CpG panel. On a hit it
copies the read's ML likelihood at the current read offset into the read's
matrix row. This project models that core in Dafny:

- `cigar.dfy` (module `Cigar`): the nine CIGAR operations of SAMv1's table
  and the codes 9..15 outside it, the packed 32-bit BAM word (`bam_cigar_op` / `bam_cigar_oplen`),
  and the "consumes query" / "consumes reference" table of section 1.4 of
  the SAM/BAM Format Specification.
- `walk.dfy` (module `CigarWalk`): the coordinate walk. `Advance` is one
  case of the switch and `Final` gives the counters after a whole CIGAR.
  `Emit`/`Walk` list the (reference, read offset) pairs that are tested
  base by base. `Warnings` lists the operations that reach the
  "Unexpected CIGAR operation" branch.
- `panel.dfy` (module `Panel`): `find_cpg_index` as a function and as the
  loop of `find_cpg_index`, and `load_cpg_sites` as a parse-until-first-failure over
  abstract line results.
- `extraction.dfy` (module `Extraction`): `extract_methylation` as a pure
  state step (`ExtractRead`), the same step as `extract_methylation`'s nested loops
  (`ExtractMethylation`, proved equal to it), and the scan over the reads of
  the region queries (`Scan`).
- `wrappers.dfy`: the `Option` type for the MM and ML tags.

The matrix is a map from (row, column) to an 8-bit likelihood. A missing
cell reads as 0, as in the zero-initialised global array. A read is
`{name, chrom, start, cigar words, MM?, ML?}`. ML is a sequence of bytes
indexed by read offset, which is how line 79 uses it.

Behaviours of the code worth knowing, each modelled as written:

- Rows are not deduplicated: a read returned by two region queries gets two
  identical rows (`Extraction.NoDedup`).
- A failing fscanf call is not an error: loading keeps the sites read so
  far and stops at the first call that does not return 2 (`Panel.Load`).
  A line without ':' does not fail on its own: `%99[^:]` also takes the
  newline, so it becomes the front of the next site's chromosome name.
- A read lacking MM or ML adds no row. Its name is still copied into
  `read_names[read_count]` (line 51 runs before the tag test on line 56),
  so the name slot is overwritten by the next read.
- Start 100 with `M2 I3 M2` tests `(102,5),(103,6)` for the second match:
  the read offset is 2 after `M2` and 5 after `I3`
  (`CigarWalk.InsertionExample`).
- `P` (padding), htslib's `B` (code 9) and codes 10..15 are not in the
  switch. They reach the warning and move neither counter.

Two further behaviours are flagged here. The first is modelled as written.
The second is abstracted (see "## Left out").

- `ref_pos` starts from the 0-based alignment start (line 62). The region
  string on line 144 is 1-based and built from the same panel value. Panel
  positions are compared to `ref_pos` literally, so the lookup and the
  region query use different conventions for the same number.
- `ml++` (line 58) skips only the type byte of the `B` array. So `ml[read_pos]`
  really reads the sub-type and count bytes before the data. ML is also
  indexed by modification call, not by read offset. The model uses the
  abstract "likelihood per read offset" that line 79 assumes.

## Model

| member | source | states |
|---|---|---|
| Cigar.Code | create_cpg_matrix.c:69-74 | each operation has one BAM code below 16; exactly the operations outside SAMv1's table (htslib's B and unnamed codes) have codes 9..15 |
| Cigar.OpOf | create_cpg_matrix.c:69-74 | every 4-bit code names a valid operation whose code is that code |
| Cigar.Unpack | create_cpg_matrix.c:68-69 | a 32-bit CIGAR word splits into a length below 2^28 and a valid operation, with length·16 + code equal to the word |
| Cigar.Pack | create_cpg_matrix.c:68-69 | packing a run and unpacking it again gives the run back |
| Cigar.Decode | create_cpg_matrix.c:61-69 | a read's packed CIGAR words become one valid run per word, in order, each run's length·16 + code equal to its word |
| CigarWalk.Advance | create_cpg_matrix.c:71-108 | each case of the switch moves the reference position by the length exactly when SAMv1 says the operation consumes reference, and the read offset exactly when it consumes query |
| CigarWalk.Final | create_cpg_matrix.c:62-109 | after the loop, ref_pos is the start plus the summed M/=/X/D/N lengths, and read_pos is the summed M/=/X/I/S lengths |
| CigarWalk.Run | create_cpg_matrix.c:75-83 | a match-type run of L bases at counters (r, q) tests exactly the pairs (r+i, q+i) for i in [0, L), in order |
| CigarWalk.Walk | create_cpg_matrix.c:61-109 | a read's walk tests one pair per M/=/X base, with reference positions and read offsets strictly increasing, read offsets in [0, summed M/=/X/I/S length) and reference positions in [start, start + summed M/=/X/D/N length) |
| CigarWalk.EmitLength | create_cpg_matrix.c:72-84 | the walk tests one pair per base of the M, = and X runs |
| CigarWalk.Warnings | create_cpg_matrix.c:105-107 | the warnings are no more numerous than the runs, and every warned operation is one the switch does not name |
| CigarWalk.WarningsCount | create_cpg_matrix.c:67-107 | an operation the switch does not name is warned about exactly as many times as runs carry it; a named operation never is |
| CigarWalk.WarningsExact | create_cpg_matrix.c:105-107 | an operation is warned about exactly when the switch does not name it and some run of the CIGAR carries it |
| CigarWalk.UnhandledIsNoOp | create_cpg_matrix.c:98-107 | H, P and unknown operations move neither counter, and no operation other than M/=/X tests a pair |
| CigarWalk.EmitBounds | create_cpg_matrix.c:62-109 | every tested pair lies in [start ref, start ref + reference-consumed length) × [start offset, start offset + query-consumed length) |
| CigarWalk.EmitIncreasing | create_cpg_matrix.c:75-103 | tested reference positions and read offsets both strictly increase along the walk |
| CigarWalk.EmitCons | create_cpg_matrix.c:67-109 | the walk read front to back: the first run's pairs, then the rest of the walk from the counters that run leaves |
| CigarWalk.FinalCons | create_cpg_matrix.c:67-109 | the counters read front to back: the first run moves them, then the rest does |
| CigarWalk.InsertionExample | create_cpg_matrix.c:72-88 | start 100 with M2 I3 M2 tests (100,0), (101,1), (102,5), (103,6) |
| CigarWalk.DeletionExample | create_cpg_matrix.c:72-92 | start 100 with M2 D3 M2 tests (100,0), (101,1), (105,2), (106,3) |
| CigarWalk.SoftClipExample | create_cpg_matrix.c:72-96 | start 50 with S3 M2 tests (50,3), (51,4) |
| Panel.Find | create_cpg_matrix.c:39-46 | the lookup returns the smallest index whose site has the same chromosome string and position, or -1 exactly when no site matches; the result is in [-1, count) |
| Panel.FindCpgIndex | create_cpg_matrix.c:39-46 | `find_cpg_index`'s loop returns the smallest matching index, or -1 exactly when none matches, and agrees with Find |
| Panel.FindOffByOne | create_cpg_matrix.c:41 | a position one base either side of a matched site never finds that site |
| Panel.FindPins | create_cpg_matrix.c:41 | two positions that find the same column are equal |
| Panel.Load | create_cpg_matrix.c:31-33 | loading keeps the sites of the leading successful fscanf calls in file order, with indices 0..n-1, and stops at the first call that fails |
| Panel.LoadSites | create_cpg_matrix.c:31-33 | `load_cpg_sites`' fscanf loop yields the same sites, in file order, up to the first failing call |
| Panel.LoadStopsAtFailure | create_cpg_matrix.c:31-33 | calls after the first failure never contribute a site, and every successful call before it does |
| Panel.LoadUnique | create_cpg_matrix.c:31-33 | any site list with Load's three properties is Load's result |
| Extraction.WriteAll | create_cpg_matrix.c:77-80 | the writes of one read touch only cells of its own row whose column is inside the panel; every other cell keeps its presence and value |
| Extraction.WriteAllCell | create_cpg_matrix.c:77-80 | a cell (row, j) ends as ML at the offset of the pair that finds column j, and is untouched when no pair finds j |
| Extraction.WriteAllHit | create_cpg_matrix.c:77-80 | a pair that finds column j leaves ML at its own offset in cell (row, j), because no later pair of the increasing walk finds j |
| Extraction.WriteAllMiss | create_cpg_matrix.c:77-80 | when no pair finds column j, cell (row, j) keeps its presence and value |
| Extraction.ExtractRead | create_cpg_matrix.c:49-112 | a read without MM or ML leaves the matrix, row count and warnings unchanged; a tagged read adds exactly one row and logs its unhandled operations; no cell outside row read_count changes, and new cells lie inside the panel |
| Extraction.ExtractReadCell | create_cpg_matrix.c:77-80 | in a tagged read's row, column j holds ML at the offset of the tested pair that finds j, and is unchanged when none does |
| Extraction.ExtractReadRowExact | create_cpg_matrix.c:77-80 | from a state whose later rows are empty, a tagged read's row has a cell exactly at the columns some tested pair found |
| Extraction.AtMostOnce | create_cpg_matrix.c:75-83 | within one read, two tested pairs that find the same column are the same pair, so each cell of the row is written at most once |
| Extraction.CoveredReadOk | create_cpg_matrix.c:79 | if ML has at least as many entries as the summed M/=/X/I/S length, no ML read is out of range |
| Extraction.EmptyInv | create_cpg_matrix.c:15-22 | the zero-initialised globals satisfy the matrix invariant |
| Extraction.ExtractReadInv | create_cpg_matrix.c:49-112 | extraction keeps rows at or beyond read_count empty, columns inside the panel, and name slots at or below read_count |
| Extraction.NoDedup | create_cpg_matrix.c:142-157 | a tagged read extracted twice gets two rows with its name and identical cells, and the row count grows by two |
| Extraction.MatchBase | create_cpg_matrix.c:76-82 | one pass of the inner loop writes ML at the read offset into column j exactly when the base's position finds j, extending the writes by that one pair |
| Extraction.MatchRun | create_cpg_matrix.c:75-83 | the inner loop over a match-type run performs exactly the writes of that run's pairs and leaves both counters moved by the run length |
| Extraction.StepRun | create_cpg_matrix.c:68-108 | one pass of the switch performs that run's writes, moves the counters as Advance does, and logs the operation iff the switch does not name it |
| Extraction.StepAt | create_cpg_matrix.c:67-109 | one iteration of the loop over runs turns the state for the first k runs into the state for the first k+1 |
| Extraction.RunsLoop | create_cpg_matrix.c:67-109 | the loop over the CIGAR words, from any counters, performs exactly the writes of the pairs the walk emits from there and logs exactly the unhandled operations |
| Extraction.WalkRuns | create_cpg_matrix.c:61-109 | the loop over all CIGAR words performs exactly the writes of the read's walk and logs exactly its unhandled operations |
| Extraction.ExtractMethylation | create_cpg_matrix.c:49-112 | `extract_methylation`'s loops produce the same state as ExtractRead |
| Extraction.Scan | create_cpg_matrix.c:142-157 | after the scan, the row count has grown by the number of reads that carry both tags, one row per such read, with no deduplication |
| Extraction.ScanInv | create_cpg_matrix.c:142-157 | the scan keeps the matrix invariant |
| Extraction.UntaggedScan | create_cpg_matrix.c:54-56 | reads lacking a tag leave the matrix and the row count untouched |

## Left out

- File I/O and htslib: opening the panel file and `load_cpg_sites`' exit(1)
  when that fails, the "Loaded %d CpG sites" message (lines 26-29, 35),
  opening the BAM file, the header and index loads and
  their error exits, and the region iterators (lines 114-157, 174-177). The
  reads a scan sees are a parameter of `Scan`. A failed region query
  contributes no reads.
- The report printed on lines 160-172. `Extraction.Value` gives the number
  printed for a cell (0 when never written).
- The MM/ML byte layout (lines 54-58). MM is only tested for presence and
  its delta encoding is never read. ML is an abstract byte sequence indexed
  by read offset (see above).
- The fixed capacities `MAX_CPG` and `MAX_READS` and the unchecked overflow
  past them (lines 7-8, 15-22, 31, 51). The model's panel and matrix are
  unbounded, so it matches the source only while fewer than 1000 sites and
  1000 tagged reads are involved.
- The 100-byte name and chromosome buffers, `strcpy` (line 51) and the
  `%99[^:]` width. Strings are unbounded sequences.
- fscanf's character-level matching on line 31. `Panel.Attempt` stands for
  the result of one fscanf call, not one text line: a site or a failure.
  Which text a call consumes is not modelled, so a line without ':' being
  merged into the next site's chromosome name is outside the model. End of
  file is the end of the call sequence.
- 32-bit `int` overflow of `ref_pos` and `read_pos`. Counters are unbounded
  integers.
- The text of the stderr messages. Warnings are kept as the list of
  offending operations.
- Extraction.ExtractRead: requires that ML has an entry at every read offset
  whose pair finds a panel site. The source reads `ml[read_pos]` unchecked
  there, and reading past the end is undefined behaviour, which the model
  does not give a meaning.

=== FILE: cigar.dfy ===
/** CIGAR operations as an alignment record carries them. Section 1.4 of the
    SAM/BAM Format Specification (SAMv1) names the operations and says which
    of them consume query bases and which consume reference bases; section
    4.2 packs each operation into a 32-bit word whose low 4 bits hold the
    operation code and whose high 28 bits hold the length. */
module Cigar {

  /** The nine operations MIDNSHP=X of SAMv1's table, with BAM codes 0..8.
      The 4-bit code field can also carry 9 (htslib's B, "back") and
      10..15; all of these lie outside SAMv1's table. */
  datatype Op =
    | Match             // M, code 0
    | Ins               // I, code 1
    | Del               // D, code 2
    | RefSkip           // N, code 3
    | SoftClip          // S, code 4
    | HardClip          // H, code 5
    | Pad               // P, code 6
    | Equal             // =, code 7
    | Diff              // X, code 8
    | Unnamed(code: nat) // 9 (htslib's B) and 10..15: not in SAMv1's table

  /** One run of a CIGAR: an operation and its length. */
  datatype Elem = Elem(op: Op, len: nat)

  const CODE_LIMIT: nat := 16
  const LEN_LIMIT: nat := 0x1000_0000
  const WORD_LIMIT: nat := 0x1_0000_0000

  /** A packed CIGAR word, an unsigned 32-bit integer. */
  type Word = w: int | 0 <= w < WORD_LIMIT

  /** The operation letters of SAMv1's table, in BAM code order. */
  const SAM_OPS: string := "MIDNSHP=X"

  /** The letter SAMv1 writes for an operation of its table. */
  function Letter(op: Op): char
    requires !op.Unnamed?
  {
    match op
    case Match => 'M'
    case Ins => 'I'
    case Del => 'D'
    case RefSkip => 'N'
    case SoftClip => 'S'
    case HardClip => 'H'
    case Pad => 'P'
    case Equal => '='
    case Diff => 'X'
  }

  predicate ValidOp(op: Op) {
    op.Unnamed? ==> 9 <= op.code < CODE_LIMIT
  }

  predicate ValidElem(e: Elem) {
    ValidOp(e.op) && e.len < LEN_LIMIT
  }

  /** The BAM code of an operation. */
  function Code(op: Op): (c: nat)
    requires ValidOp(op)
    ensures c < CODE_LIMIT
    ensures op.Unnamed? <==> 9 <= c
    ensures !op.Unnamed? ==> SAM_OPS[c] == Letter(op)
  {
    match op
    case Match => 0
    case Ins => 1
    case Del => 2
    case RefSkip => 3
    case SoftClip => 4
    case HardClip => 5
    case Pad => 6
    case Equal => 7
    case Diff => 8
    case Unnamed(c) => c
  }

  /** The operation a 4-bit code names. */
  function OpOf(c: nat): (op: Op)
    requires c < CODE_LIMIT
    ensures ValidOp(op)
    ensures Code(op) == c
  {
    if c == 0 then Match
    else if c == 1 then Ins
    else if c == 2 then Del
    else if c == 3 then RefSkip
    else if c == 4 then SoftClip
    else if c == 5 then HardClip
    else if c == 6 then Pad
    else if c == 7 then Equal
    else if c == 8 then Diff
    else Unnamed(c)
  }

  /** Distinct operations have distinct codes, so a code names one operation. */
  lemma OpOfCode(op: Op)
    requires ValidOp(op)
    ensures OpOf(Code(op)) == op
  {
  }

  /** bam_cigar_op and bam_cigar_oplen: the low 4 bits and the rest. */
  function Unpack(w: Word): (e: Elem)
    ensures ValidElem(e)
    ensures e.len * CODE_LIMIT + Code(e.op) == w
  {
    Elem(OpOf(w % CODE_LIMIT), w / CODE_LIMIT)
  }

  /** The packed word of a run, the inverse of Unpack. */
  function Pack(e: Elem): (w: Word)
    requires ValidElem(e)
    ensures Unpack(w) == e
  {
    OpOfCode(e.op);
    e.len * CODE_LIMIT + Code(e.op)
  }

  /** Unpacking and repacking a word gives the word back. */
  lemma PackUnpack(w: Word)
    ensures Pack(Unpack(w)) == w
  {
  }

  /** The runs of a packed CIGAR (bam_get_cigar), in order: one valid run
      per word, whose length and code repack to that word. */
  function Decode(ws: seq<Word>): (ops: seq<Elem>)
    ensures |ops| == |ws|
    ensures forall i :: 0 <= i < |ws| ==> ValidElem(ops[i]) && ops[i].len * CODE_LIMIT + Code(ops[i].op) == ws[i]
  {
    seq(|ws|, i requires 0 <= i < |ws| => Unpack(ws[i]))
  }

  /** The "consumes query" column of the SAMv1 operation table. */
  predicate ConsumesQuery(op: Op) {
    op.Match? || op.Ins? || op.SoftClip? || op.Equal? || op.Diff?
  }

  /** The "consumes reference" column of the SAMv1 operation table. */
  predicate ConsumesRef(op: Op) {
    op.Match? || op.Del? || op.RefSkip? || op.Equal? || op.Diff?
  }

  /** Operations that align a read base with a reference base. */
  predicate AlignsBases(op: Op) {
    op.Match? || op.Equal? || op.Diff?
  }

  /** Operations the extraction's switch names; any other one (P and the
      codes 9..15) falls through to the "Unexpected CIGAR operation"
      warning. */
  predicate Handled(op: Op) {
    !op.Pad? && !op.Unnamed?
  }
}

=== FILE: extraction.dfy ===
/** extract_methylation and the scan that drives it: each read carrying both
    modification tags is walked, every tested reference position that is a
    panel site gets the read's likelihood at that read offset, and the read
    takes the next matrix row. */
module Extraction {
  import opened Wrappers
  import opened Cigar
  import opened CigarWalk
  import opened Panel

  /** One ML likelihood, an unsigned 8-bit value. */
  type Byte = x: int | 0 <= x < 256

  /** An alignment as the extraction sees it. The MM tag is only tested for
      presence; ML is a likelihood per read offset. */
  datatype Read = Read(
    name: string,
    chrom: string,
    start: int,
    cigar: seq<Word>,
    mm: Option<string>,
    ml: Option<seq<Byte>>)

  /** The matrix (row, column) -> likelihood, where a missing cell reads as
      0; the row count; the slots of read_names; the warnings raised. */
  datatype State = State(
    cells: map<(nat, nat), Byte>,
    readCount: nat,
    names: map<nat, string>,
    warnings: seq<Op>)

  /** The zero-initialised globals at program start. */
  const Empty: State := State(map[], 0, map[], [])

  predicate HasTags(read: Read) {
    read.mm.Some? && read.ml.Some?
  }

  /** The pairs the walk of this read tests. */
  function Pairs(read: Read): seq<Coord> {
    Walk(read.start, Decode(read.cigar))
  }

  /** Whether the pair p finds panel column j. */
  predicate Hit(panel: seq<Site>, chrom: string, p: Coord, j: nat) {
    Find(panel, chrom, p.refPos) == j
  }

  /** Every offset read from ML (those of pairs that find a site) exists. */
  predicate HitsInRange(panel: seq<Site>, chrom: string, ml: seq<Byte>, ps: seq<Coord>) {
    forall i :: 0 <= i < |ps| && Find(panel, chrom, ps[i].refPos) >= 0 ==> 0 <= ps[i].readPos < |ml|
  }

  /** What extract_methylation relies on but never checks: ml[read_pos] exists
      whenever the extraction reads it. */
  predicate ReadOk(panel: seq<Site>, read: Read) {
    HasTags(read) ==> HitsInRange(panel, read.chrom, read.ml.value, Pairs(read))
  }

  /** The cell value the report prints. */
  function Value(st: State, row: nat, col: nat): int {
    if (row, col) in st.cells then st.cells[(row, col)] else 0
  }

  /** The writes of one read into row `row`, pair by pair: a pair that
      finds column j sets cell (row, j) to ML at its read offset. */
  function WriteAll(panel: seq<Site>, chrom: string, ml: seq<Byte>, row: nat,
                    cells: map<(nat, nat), Byte>, ps: seq<Coord>): (cells': map<(nat, nat), Byte>)
    requires HitsInRange(panel, chrom, ml, ps)
    ensures forall c :: c in cells' ==> c in cells || (c.0 == row && c.1 < |panel|)
    ensures forall c: (nat, nat) :: c.0 != row ==> (c in cells' <==> c in cells)
    ensures forall c: (nat, nat) :: c.0 != row && c in cells ==> cells'[c] == cells[c]
  {
    if |ps| == 0 then cells
    else
      var n := |ps| - 1;
      assert HitsInRange(panel, chrom, ml, ps[..n]) by {
        forall i | 0 <= i < n ensures ps[..n][i] == ps[i] { }
      }
      var prev := WriteAll(panel, chrom, ml, row, cells, ps[..n]);
      var j := Find(panel, chrom, ps[n].refPos);
      if 0 <= j then prev[(row, j) := ml[ps[n].readPos]] else prev
  }

  /** A pair that finds column j leaves ML at its offset in cell (row, j):
      no later pair finds j, the reference positions being increasing. */
  lemma {:induction false} WriteAllHit(panel: seq<Site>, chrom: string, ml: seq<Byte>, row: nat,
                                       cells: map<(nat, nat), Byte>, ps: seq<Coord>, j: nat, k: nat)
    requires HitsInRange(panel, chrom, ml, ps)
    requires Increasing(ps)
    requires k < |ps| && Hit(panel, chrom, ps[k], j)
    ensures (row, j) in WriteAll(panel, chrom, ml, row, cells, ps)
    ensures WriteAll(panel, chrom, ml, row, cells, ps)[(row, j)] == ml[ps[k].readPos]
    decreases |ps|
  {
    var n := |ps| - 1;
    var init := ps[..n];
    assert HitsInRange(panel, chrom, ml, init) by {
      forall i | 0 <= i < n ensures init[i] == ps[i] { }
    }
    var last := Find(panel, chrom, ps[n].refPos);
    if k < n {
      assert init[k] == ps[k];
      assert Increasing(init);
      WriteAllHit(panel, chrom, ml, row, cells, init, j, k);
      assert last != j;
    }
  }

  /** With no pair finding column j, cell (row, j) is as before. */
  lemma {:induction false} WriteAllMiss(panel: seq<Site>, chrom: string, ml: seq<Byte>, row: nat,
                                        cells: map<(nat, nat), Byte>, ps: seq<Coord>, j: nat)
    requires HitsInRange(panel, chrom, ml, ps)
    requires forall k :: 0 <= k < |ps| ==> !Hit(panel, chrom, ps[k], j)
    ensures (row, j) in WriteAll(panel, chrom, ml, row, cells, ps) <==> (row, j) in cells
    ensures (row, j) in cells ==> WriteAll(panel, chrom, ml, row, cells, ps)[(row, j)] == cells[(row, j)]
    decreases |ps|
  {
    if |ps| > 0 {
      var n := |ps| - 1;
      var init := ps[..n];
      assert forall i :: 0 <= i < n ==> init[i] == ps[i];
      WriteAllMiss(panel, chrom, ml, row, cells, init, j);
      assert !Hit(panel, chrom, ps[n], j);
    }
  }

  /** The content of one cell of the written row: a pair that finds column
      j leaves ML at its offset there (the pairs' reference positions being
      distinct, at most one pair finds j); with no such pair the cell is as
      before. */
  lemma {:induction false} WriteAllCell(panel: seq<Site>, chrom: string, ml: seq<Byte>, row: nat,
                                        cells: map<(nat, nat), Byte>, ps: seq<Coord>, j: nat)
    requires HitsInRange(panel, chrom, ml, ps)
    requires Increasing(ps)
    ensures forall k :: 0 <= k < |ps| && Hit(panel, chrom, ps[k], j) ==>
              && (row, j) in WriteAll(panel, chrom, ml, row, cells, ps)
              && WriteAll(panel, chrom, ml, row, cells, ps)[(row, j)] == ml[ps[k].readPos]
    ensures (forall k :: 0 <= k < |ps| ==> !Hit(panel, chrom, ps[k], j)) ==>
              && ((row, j) in WriteAll(panel, chrom, ml, row, cells, ps) <==> (row, j) in cells)
              && ((row, j) in cells ==> WriteAll(panel, chrom, ml, row, cells, ps)[(row, j)] == cells[(row, j)])
  {
    forall k | 0 <= k < |ps| && Hit(panel, chrom, ps[k], j)
      ensures (row, j) in WriteAll(panel, chrom, ml, row, cells, ps)
      ensures WriteAll(panel, chrom, ml, row, cells, ps)[(row, j)] == ml[ps[k].readPos]
    {
      WriteAllHit(panel, chrom, ml, row, cells, ps, j, k);
    }
    if forall k :: 0 <= k < |ps| ==> !Hit(panel, chrom, ps[k], j) {
      WriteAllMiss(panel, chrom, ml, row, cells, ps, j);
    }
  }

  /** extract_methylation as a state step. The read's name always goes to
      slot readCount; a read lacking MM or ML stops there; otherwise its
      writes go to row readCount, the unhandled operations are logged, and
      the row count goes up by one. */
  function ExtractRead(panel: seq<Site>, st: State, read: Read): (st': State)
    requires ReadOk(panel, read)
    ensures st'.names == st.names[st.readCount := read.name]
    ensures st'.readCount == st.readCount + (if HasTags(read) then 1 else 0)
    ensures !HasTags(read) ==> st'.cells == st.cells && st'.warnings == st.warnings
    ensures HasTags(read) ==> st'.warnings == st.warnings + Warnings(Decode(read.cigar))
    ensures forall c :: c in st'.cells ==> c in st.cells || (c.0 == st.readCount && c.1 < |panel|)
    ensures forall c: (nat, nat) :: c.0 != st.readCount ==> (c in st'.cells <==> c in st.cells)
    ensures forall c: (nat, nat) :: c.0 != st.readCount && c in st.cells ==> st'.cells[c] == st.cells[c]
  {
    var names := st.names[st.readCount := read.name];
    if !HasTags(read) then st.(names := names)
    else
      State(WriteAll(panel, read.chrom, read.ml.value, st.readCount, st.cells, Pairs(read)),
            st.readCount + 1, names, st.warnings + Warnings(Decode(read.cigar)))
  }

  /** The row a tagged read gets: column j holds ML at the read offset of
      the (single) tested pair whose reference position finds j, and is
      untouched when no tested pair finds j. */
  lemma ExtractReadCell(panel: seq<Site>, st: State, read: Read, j: nat)
    requires ReadOk(panel, read)
    requires HasTags(read)
    ensures forall k :: 0 <= k < |Pairs(read)| && Hit(panel, read.chrom, Pairs(read)[k], j) ==>
              Value(ExtractRead(panel, st, read), st.readCount, j) == read.ml.value[Pairs(read)[k].readPos]
    ensures (forall k :: 0 <= k < |Pairs(read)| ==> !Hit(panel, read.chrom, Pairs(read)[k], j)) ==>
              Value(ExtractRead(panel, st, read), st.readCount, j) == Value(st, st.readCount, j)
  {
    EmitIncreasing(Coord(read.start, 0), Decode(read.cigar));
    WriteAllCell(panel, read.chrom, read.ml.value, st.readCount, st.cells, Pairs(read), j);
  }

  /** Each cell of the current row is written at most once per read: two
      tested pairs that find the same column are the same pair. */
  lemma AtMostOnce(panel: seq<Site>, read: Read, j: nat, k1: nat, k2: nat)
    requires k1 < |Pairs(read)| && k2 < |Pairs(read)|
    requires Hit(panel, read.chrom, Pairs(read)[k1], j)
    requires Hit(panel, read.chrom, Pairs(read)[k2], j)
    ensures k1 == k2
  {
    EmitIncreasing(Coord(read.start, 0), Decode(read.cigar));
    FindPins(panel, read.chrom, Pairs(read)[k1].refPos, Pairs(read)[k2].refPos);
  }

  /** A read whose CIGAR covers all its ML entries (|ML| at least the
      summed M/I/S/=/X lengths) never reads ML out of range. */
  lemma CoveredReadOk(panel: seq<Site>, read: Read)
    requires HasTags(read)
    requires |read.ml.value| >= QueryLen(Decode(read.cigar))
    ensures ReadOk(panel, read)
  {
  }

  /** Rows at or beyond readCount are empty, columns lie inside the panel,
      and name slots go no further than the row being filled. */
  predicate Inv(panel: seq<Site>, st: State) {
    && (forall c :: c in st.cells ==> c.0 < st.readCount && c.1 < |panel|)
    && (forall n :: n in st.names ==> n <= st.readCount)
  }

  lemma EmptyInv(panel: seq<Site>)
    ensures Inv(panel, Empty)
  {
  }

  /** ExtractRead keeps the invariant. */
  lemma ExtractReadInv(panel: seq<Site>, st: State, read: Read)
    requires Inv(panel, st)
    requires ReadOk(panel, read)
    ensures Inv(panel, ExtractRead(panel, st, read))
  {
  }

  /** Under the invariant a tagged read's row holds exactly the cells its
      walk hit: a cell is present only if some tested pair found its column. */
  lemma ExtractReadRowExact(panel: seq<Site>, st: State, read: Read, j: nat)
    requires Inv(panel, st)
    requires ReadOk(panel, read)
    requires HasTags(read)
    ensures (st.readCount, j) in ExtractRead(panel, st, read).cells <==>
              exists k :: 0 <= k < |Pairs(read)| && Hit(panel, read.chrom, Pairs(read)[k], j)
  {
    EmitIncreasing(Coord(read.start, 0), Decode(read.cigar));
    WriteAllCell(panel, read.chrom, read.ml.value, st.readCount, st.cells, Pairs(read), j);
  }

  /** A read seen twice (its alignment overlaps two queried sites) gets two
      rows with the same name and the same cells: rows are not
      deduplicated. */
  lemma NoDedup(panel: seq<Site>, st: State, read: Read)
    requires Inv(panel, st)
    requires ReadOk(panel, read)
    requires HasTags(read)
    ensures ExtractRead(panel, ExtractRead(panel, st, read), read).readCount == st.readCount + 2
    ensures ExtractRead(panel, ExtractRead(panel, st, read), read).names[st.readCount] == read.name
    ensures ExtractRead(panel, ExtractRead(panel, st, read), read).names[st.readCount + 1] == read.name
    ensures forall j: nat :: Value(ExtractRead(panel, ExtractRead(panel, st, read), read), st.readCount, j)
                          == Value(ExtractRead(panel, ExtractRead(panel, st, read), read), st.readCount + 1, j)
  {
    var st1 := ExtractRead(panel, st, read);
    var st2 := ExtractRead(panel, st1, read);
    ExtractReadInv(panel, st, read);
    forall j: nat
      ensures Value(st2, st.readCount, j) == Value(st2, st.readCount + 1, j)
    {
      ExtractReadCell(panel, st, read, j);
      ExtractReadCell(panel, st1, read, j);
      assert Value(st2, st.readCount, j) == Value(st1, st.readCount, j);
    }
  }

  /** A prefix of pairs whose ML offsets are in range has them in range. */
  lemma HitsInRangePrefix(panel: seq<Site>, chrom: string, ml: seq<Byte>, ps: seq<Coord>, qs: seq<Coord>)
    requires ps <= qs
    requires HitsInRange(panel, chrom, ml, qs)
    ensures HitsInRange(panel, chrom, ml, ps)
  {
    assert forall i :: 0 <= i < |ps| ==> ps[i] == qs[i];
  }

  /** Appending one pair to the written pairs performs that pair's write. */
  lemma WriteAllSnoc(panel: seq<Site>, chrom: string, ml: seq<Byte>, row: nat,
                     cells: map<(nat, nat), Byte>, ps: seq<Coord>, p: Coord)
    requires HitsInRange(panel, chrom, ml, ps + [p])
    ensures HitsInRange(panel, chrom, ml, ps)
    ensures Find(panel, chrom, p.refPos) >= 0 ==> 0 <= p.readPos < |ml|
    ensures WriteAll(panel, chrom, ml, row, cells, ps + [p])
         == (if Find(panel, chrom, p.refPos) >= 0
             then WriteAll(panel, chrom, ml, row, cells, ps)[(row, Find(panel, chrom, p.refPos)) := ml[p.readPos]]
             else WriteAll(panel, chrom, ml, row, cells, ps))
  {
    assert (ps + [p])[..|ps|] == ps;
    assert (ps + [p])[|ps|] == p;
    HitsInRangePrefix(panel, chrom, ml, ps, ps + [p]);
  }

  /** The first i pairs of a run are a prefix of all of them. */
  lemma {:induction false} RunPrefix(done: seq<Coord>, f: Coord, i: nat, len: nat)
    requires i <= len
    ensures done + Run(f, i) <= done + Run(f, len)
    decreases len - i
  {
    if i < len {
      RunPrefix(done, f, i + 1, len);
      assert done + Run(f, i + 1) == (done + Run(f, i)) + [Coord(f.refPos + i, f.readPos + i)];
    }
  }

  /** One base of a match-type run: appending the pair (f + i) to the pairs
      written so far performs that base's write, if its position hits. */
  lemma MatchStep(panel: seq<Site>, chrom: string, ml: seq<Byte>, row: nat,
                  base: map<(nat, nat), Byte>, done: seq<Coord>, full: seq<Coord>,
                  f: Coord, len: nat, i: nat)
    requires i < len
    requires done + Run(f, len) <= full
    requires HitsInRange(panel, chrom, ml, full)
    ensures HitsInRange(panel, chrom, ml, done + Run(f, i))
    ensures HitsInRange(panel, chrom, ml, done + Run(f, i + 1))
    ensures Find(panel, chrom, f.refPos + i) >= 0 ==> 0 <= f.readPos + i < |ml|
    ensures WriteAll(panel, chrom, ml, row, base, done + Run(f, i + 1))
         == (if Find(panel, chrom, f.refPos + i) >= 0
             then WriteAll(panel, chrom, ml, row, base, done + Run(f, i))
                    [(row, Find(panel, chrom, f.refPos + i)) := ml[f.readPos + i]]
             else WriteAll(panel, chrom, ml, row, base, done + Run(f, i)))
  {
    var p := Coord(f.refPos + i, f.readPos + i);
    var prev := done + Run(f, i);
    var ps := done + Run(f, i + 1);
    assert Run(f, i + 1) == Run(f, i) + [p];
    AppendAssoc(done, Run(f, i), [p]);
    assert ps == prev + [p];
    RunPrefix(done, f, i + 1, len);
    HitsInRangePrefix(panel, chrom, ml, ps, full);
    WriteAllSnoc(panel, chrom, ml, row, base, prev, p);
    assert WriteAll(panel, chrom, ml, row, base, ps) == WriteAll(panel, chrom, ml, row, base, prev + [p]);
  }

  /** The body of the inner loop: test one base and write its cell on a hit. */
  method MatchBase(panel: seq<Site>, chrom: string, ml: seq<Byte>, row: nat,
                   ghost base: map<(nat, nat), Byte>, ghost done: seq<Coord>, ghost full: seq<Coord>,
                   cells: map<(nat, nat), Byte>, ghost f: Coord, ghost len: nat, ghost i: nat,
                   refPos: int, readPos: int)
    returns (cells': map<(nat, nat), Byte>)
    requires i < len
    requires done + Run(f, len) <= full
    requires HitsInRange(panel, chrom, ml, full)
    requires refPos == f.refPos + i && readPos == f.readPos + i
    requires HitsInRange(panel, chrom, ml, done + Run(f, i))
    requires cells == WriteAll(panel, chrom, ml, row, base, done + Run(f, i))
    ensures HitsInRange(panel, chrom, ml, done + Run(f, i + 1))
    ensures cells' == WriteAll(panel, chrom, ml, row, base, done + Run(f, i + 1))
  {
    MatchStep(panel, chrom, ml, row, base, done, full, f, len, i);
    cells' := cells;
    var j := FindCpgIndex(panel, chrom, refPos);
    if j >= 0 {
      cells' := cells[(row, j) := ml[readPos]];
    }
  }

  /** The inner loop of a match-type run: len bases tested one at a time
      from counters f, each hit writing cell (row, j). */
  method MatchRun(panel: seq<Site>, chrom: string, ml: seq<Byte>, row: nat,
                  ghost base: map<(nat, nat), Byte>, ghost done: seq<Coord>, ghost full: seq<Coord>,
                  cells: map<(nat, nat), Byte>, f: Coord, len: nat)
    returns (cells': map<(nat, nat), Byte>, refPos: int, readPos: int)
    requires done + Run(f, len) <= full
    requires HitsInRange(panel, chrom, ml, full)
    requires HitsInRange(panel, chrom, ml, done)
    requires cells == WriteAll(panel, chrom, ml, row, base, done)
    ensures HitsInRange(panel, chrom, ml, done + Run(f, len))
    ensures cells' == WriteAll(panel, chrom, ml, row, base, done + Run(f, len))
    ensures refPos == f.refPos + len && readPos == f.readPos + len
  {
    cells' := cells;
    refPos := f.refPos;
    readPos := f.readPos;
    var i := 0;
    assert done + Run(f, 0) == done;
    while i < len
      invariant 0 <= i <= len
      invariant refPos == f.refPos + i && readPos == f.readPos + i
      invariant HitsInRange(panel, chrom, ml, done + Run(f, i))
      invariant cells' == WriteAll(panel, chrom, ml, row, base, done + Run(f, i))
    {
      cells' := MatchBase(panel, chrom, ml, row, base, done, full, cells', f, len, i, refPos, readPos);
      refPos := refPos + 1;
      readPos := readPos + 1;
      i := i + 1;
    }
    HitsInRangePrefix(panel, chrom, ml, done + Run(f, len), full);
  }

  /** One iteration of the loop over CIGAR runs: the switch on the run's
      operation, from counters f. */
  method StepRun(panel: seq<Site>, chrom: string, ml: seq<Byte>, row: nat,
                 ghost base: map<(nat, nat), Byte>, ghost done: seq<Coord>, ghost full: seq<Coord>,
                 cells: map<(nat, nat), Byte>, warnings: seq<Op>, f: Coord, e: Elem)
    returns (cells': map<(nat, nat), Byte>, warnings': seq<Op>, f': Coord)
    requires done + Block(f, e) <= full
    requires HitsInRange(panel, chrom, ml, full)
    requires HitsInRange(panel, chrom, ml, done)
    requires cells == WriteAll(panel, chrom, ml, row, base, done)
    ensures HitsInRange(panel, chrom, ml, done + Block(f, e))
    ensures cells' == WriteAll(panel, chrom, ml, row, base, done + Block(f, e))
    ensures f' == Advance(f, e)
    ensures warnings' == warnings + (if Handled(e.op) then [] else [e.op])
  {
    cells', warnings', f' := cells, warnings, f;
    match e.op {
      case Match | Equal | Diff =>
        var refPos, readPos;
        cells', refPos, readPos := MatchRun(panel, chrom, ml, row, base, done, full, cells, f, e.len);
        f' := Coord(refPos, readPos);
      case Ins | SoftClip =>
        f' := Coord(f.refPos, f.readPos + e.len);
      case Del | RefSkip =>
        f' := Coord(f.refPos + e.len, f.readPos);
      case HardClip =>
      case _ =>
        warnings' := warnings + [e.op];
    }
    if !AlignsBases(e.op) {
      assert done + Block(f, e) == done;
    }
  }

  /** One iteration of the loop over runs, stated against the prefix of
      runs done so far: the state for ops[..k] becomes that for ops[..k+1]. */
  method StepAt(panel: seq<Site>, chrom: string, ml: seq<Byte>, row: nat,
                ghost cells0: map<(nat, nat), Byte>, ghost warnings0: seq<Op>,
                ghost s0: Coord, ghost ops: seq<Elem>, k: nat,
                cells: map<(nat, nat), Byte>, warnings: seq<Op>, counters: Coord, e: Elem)
    returns (cells': map<(nat, nat), Byte>, warnings': seq<Op>, counters': Coord)
    requires k < |ops| && e == ops[k]
    requires HitsInRange(panel, chrom, ml, Emit(s0, ops))
    requires counters == Final(s0, ops[..k])
    requires HitsInRange(panel, chrom, ml, Emit(s0, ops[..k]))
    requires cells == WriteAll(panel, chrom, ml, row, cells0, Emit(s0, ops[..k]))
    requires warnings == warnings0 + Warnings(ops[..k])
    ensures counters' == Final(s0, ops[..k + 1])
    ensures HitsInRange(panel, chrom, ml, Emit(s0, ops[..k + 1]))
    ensures cells' == WriteAll(panel, chrom, ml, row, cells0, Emit(s0, ops[..k + 1]))
    ensures warnings' == warnings0 + Warnings(ops[..k + 1])
  {
    ghost var done := Emit(s0, ops[..k]);
    ghost var next := Emit(s0, ops[..k + 1]);
    ghost var w: seq<Op> := if Handled(e.op) then [] else [e.op];
    EmitStep(s0, ops, k);
    EmitPrefix(s0, ops, k + 1);
    assert next == done + Block(counters, e);
    cells', warnings', counters' := StepRun(panel, chrom, ml, row, cells0, done, Emit(s0, ops),
                                            cells, warnings, counters, e);
    assert cells' == WriteAll(panel, chrom, ml, row, cells0, next);
    AppendAssoc(warnings0, Warnings(ops[..k]), w);
  }

  /** The loop over the packed CIGAR words, from counters s0, with ops the
      runs the words unpack to. */
  method RunsLoop(panel: seq<Site>, chrom: string, ml: seq<Byte>, row: nat,
                  cells0: map<(nat, nat), Byte>, warnings0: seq<Op>, s0: Coord,
                  ghost ops: seq<Elem>, cigar: seq<Word>)
    returns (cells: map<(nat, nat), Byte>, warnings: seq<Op>)
    requires |ops| == |cigar|
    requires forall k :: 0 <= k < |cigar| ==> Unpack(cigar[k]) == ops[k]
    requires HitsInRange(panel, chrom, ml, Emit(s0, ops))
    ensures cells == WriteAll(panel, chrom, ml, row, cells0, Emit(s0, ops))
    ensures warnings == warnings0 + Warnings(ops)
  {
    var counters := s0;
    cells := cells0;
    warnings := warnings0;
    var k := 0;
    assert ops[..0] == [];
    while k < |cigar|
      invariant 0 <= k <= |cigar|
      invariant counters == Final(s0, ops[..k])
      invariant HitsInRange(panel, chrom, ml, Emit(s0, ops[..k]))
      invariant cells == WriteAll(panel, chrom, ml, row, cells0, Emit(s0, ops[..k]))
      invariant warnings == warnings0 + Warnings(ops[..k])
    {
      var e := Unpack(cigar[k]);
      cells, warnings, counters := StepAt(panel, chrom, ml, row, cells0, warnings0, s0, ops, k,
                                          cells, warnings, counters, e);
      k := k + 1;
    }
    assert ops[..|cigar|] == ops;
  }

  /** The loop over the packed CIGAR words, from the alignment start and
      read offset 0, writing into row `row`. */
  method WalkRuns(panel: seq<Site>, chrom: string, ml: seq<Byte>, row: nat,
                  cells0: map<(nat, nat), Byte>, warnings0: seq<Op>, start: int, cigar: seq<Word>)
    returns (cells: map<(nat, nat), Byte>, warnings: seq<Op>)
    requires HitsInRange(panel, chrom, ml, Walk(start, Decode(cigar)))
    ensures cells == WriteAll(panel, chrom, ml, row, cells0, Walk(start, Decode(cigar)))
    ensures warnings == warnings0 + Warnings(Decode(cigar))
  {
    ghost var ops := Decode(cigar);
    assert Walk(start, ops) == Emit(Coord(start, 0), ops);
    cells, warnings := RunsLoop(panel, chrom, ml, row, cells0, warnings0, Coord(start, 0), ops, cigar);
  }

  /** The imperative extraction, run by run and base by base as
      extract_methylation does it, producing the same state as ExtractRead. */
  method ExtractMethylation(panel: seq<Site>, st: State, read: Read) returns (st': State)
    requires ReadOk(panel, read)
    ensures st' == ExtractRead(panel, st, read)
  {
    var names := st.names[st.readCount := read.name];
    if read.mm.None? || read.ml.None? {
      return st.(names := names);
    }
    var cells, warnings := WalkRuns(panel, read.chrom, read.ml.value, st.readCount,
                                    st.cells, st.warnings, read.start, read.cigar);
    st' := State(cells, st.readCount + 1, names, warnings);
  }

  /** The pairs tested by a prefix of the CIGAR are a prefix of the pairs
      tested by the whole CIGAR. */
  lemma {:induction false} EmitPrefix(s: Coord, cigar: seq<Elem>, k: nat)
    requires k <= |cigar|
    ensures Emit(s, cigar[..k]) <= Emit(s, cigar)
    decreases |cigar| - k
  {
    if k < |cigar| {
      EmitPrefix(s, cigar, k + 1);
      assert cigar[..k + 1][..k] == cigar[..k];
    } else {
      assert cigar[..k] == cigar;
    }
  }

  /** Number of alns carrying both tags. */
  function Tagged(alns: seq<Read>): nat {
    if |alns| == 0 then 0
    else Tagged(alns[..|alns| - 1]) + (if HasTags(alns[|alns| - 1]) then 1 else 0)
  }

  predicate AllOk(panel: seq<Site>, alns: seq<Read>) {
    forall i :: 0 <= i < |alns| ==> ReadOk(panel, alns[i])
  }

  /** The alns of the region queries, extracted in order: one new row per
      tagged read, none per untagged read. */
  function Scan(panel: seq<Site>, st: State, alns: seq<Read>): (st': State)
    requires AllOk(panel, alns)
    ensures st'.readCount == st.readCount + Tagged(alns)
  {
    if |alns| == 0 then st
    else
      var n := |alns| - 1;
      assert AllOk(panel, alns[..n]) by {
        forall i | 0 <= i < n ensures alns[..n][i] == alns[i] { }
      }
      ExtractRead(panel, Scan(panel, st, alns[..n]), alns[n])
  }

  /** The scan keeps the invariant. */
  lemma {:induction false} ScanInv(panel: seq<Site>, st: State, alns: seq<Read>)
    requires Inv(panel, st)
    requires AllOk(panel, alns)
    ensures Inv(panel, Scan(panel, st, alns))
    decreases |alns|
  {
    if |alns| > 0 {
      var n := |alns| - 1;
      assert AllOk(panel, alns[..n]) by {
        forall i | 0 <= i < n ensures alns[..n][i] == alns[i] { }
      }
      ScanInv(panel, st, alns[..n]);
      ExtractReadInv(panel, Scan(panel, st, alns[..n]), alns[n]);
    }
  }

  /** Reads lacking a tag leave the matrix and the row count untouched. */
  lemma {:induction false} UntaggedScan(panel: seq<Site>, st: State, alns: seq<Read>)
    requires AllOk(panel, alns)
    requires forall i :: 0 <= i < |alns| ==> !HasTags(alns[i])
    ensures Scan(panel, st, alns).cells == st.cells
    ensures Scan(panel, st, alns).readCount == st.readCount
    decreases |alns|
  {
    if |alns| > 0 {
      var n := |alns| - 1;
      assert AllOk(panel, alns[..n]) by {
        forall i | 0 <= i < n ensures alns[..n][i] == alns[i] { }
      }
      UntaggedScan(panel, st, alns[..n]);
    }
  }
}

=== FILE: panel.dfy ===
/** The CpG panel: sites loaded in file order, column index = load order,
    looked up by exact (chromosome, position) equality. */
module Panel {

  datatype Site = Site(chrom: string, pos: int)

  /** strcmp(...) == 0 && pos == pos: both parts compared exactly. */
  predicate Matches(site: Site, chrom: string, pos: int) {
    site.chrom == chrom && site.pos == pos
  }

  /** find_cpg_index: the first panel index whose site matches, or -1. */
  function Find(panel: seq<Site>, chrom: string, pos: int): (i: int)
    ensures -1 <= i < |panel|
    ensures 0 <= i ==> Matches(panel[i], chrom, pos)
    ensures 0 <= i ==> forall j :: 0 <= j < i ==> !Matches(panel[j], chrom, pos)
    ensures i == -1 <==> forall j :: 0 <= j < |panel| ==> !Matches(panel[j], chrom, pos)
  {
    if |panel| == 0 then -1
    else
      var i := Find(panel[..|panel| - 1], chrom, pos);
      if 0 <= i then i
      else if Matches(panel[|panel| - 1], chrom, pos) then |panel| - 1
      else -1
  }

  /** find_cpg_index's loop, scanning from index 0 and returning on the first
      match. */
  method FindCpgIndex(panel: seq<Site>, chrom: string, pos: int) returns (idx: int)
    ensures -1 <= idx < |panel|
    ensures 0 <= idx ==> Matches(panel[idx], chrom, pos)
    ensures 0 <= idx ==> forall j :: 0 <= j < idx ==> !Matches(panel[j], chrom, pos)
    ensures idx == -1 <==> forall j :: 0 <= j < |panel| ==> !Matches(panel[j], chrom, pos)
    ensures idx == Find(panel, chrom, pos)
  {
    var i := 0;
    while i < |panel|
      invariant 0 <= i <= |panel|
      invariant forall j :: 0 <= j < i ==> !Matches(panel[j], chrom, pos)
    {
      if panel[i].chrom == chrom && panel[i].pos == pos {
        return i;
      }
      i := i + 1;
    }
    return -1;
  }

  /** A position one base away from a matched site never finds that site. */
  lemma FindOffByOne(panel: seq<Site>, chrom: string, pos: int)
    requires Find(panel, chrom, pos) >= 0
    ensures Find(panel, chrom, pos + 1) != Find(panel, chrom, pos)
    ensures Find(panel, chrom, pos - 1) != Find(panel, chrom, pos)
  {
  }

  /** A hit on index j pins the position to the site's own position. */
  lemma FindPins(panel: seq<Site>, chrom: string, a: int, b: int)
    requires Find(panel, chrom, a) >= 0
    requires Find(panel, chrom, a) == Find(panel, chrom, b)
    ensures a == b
  {
  }

  /** What one fscanf("%99[^:]:%d\n") call returns: a site when both
      conversions succeed, or a failure (no match, or end of file). One call
      is not one text line: `%99[^:]` also takes newlines, so a line without
      ':' becomes the front of the next site's chromosome name. */
  datatype Attempt = Parsed(site: Site) | Failed

  /** load_cpg_sites: the sites of the leading successful fscanf calls, in
      file order; loading stops at the first call that fails. */
  function Load(calls: seq<Attempt>): (sites: seq<Site>)
    ensures |sites| <= |calls|
    ensures forall i :: 0 <= i < |sites| ==> calls[i] == Parsed(sites[i])
    ensures |sites| < |calls| ==> calls[|sites|].Failed?
  {
    if |calls| == 0 || calls[0].Failed? then []
    else [calls[0].site] + Load(calls[1..])
  }

  /** load_cpg_sites' while loop over fscanf results, appending at index
      cpg_count and counting up. */
  method LoadSites(calls: seq<Attempt>) returns (sites: seq<Site>)
    ensures |sites| <= |calls|
    ensures forall i :: 0 <= i < |sites| ==> calls[i] == Parsed(sites[i])
    ensures |sites| < |calls| ==> calls[|sites|].Failed?
    ensures sites == Load(calls)
  {
    sites := [];
    while |sites| < |calls| && calls[|sites|].Parsed?
      invariant |sites| <= |calls|
      invariant forall i :: 0 <= i < |sites| ==> calls[i] == Parsed(sites[i])
      decreases |calls| - |sites|
    {
      sites := sites + [calls[|sites|].site];
    }
    LoadUnique(calls, sites);
  }

  /** Calls after the first failure are never made: every successful call
      before it is kept, with indices 0..|a|-1, and nothing after it is. */
  lemma {:induction false} LoadStopsAtFailure(a: seq<Attempt>, b: seq<Attempt>)
    requires forall i :: 0 <= i < |a| ==> a[i].Parsed?
    ensures Load(a + [Failed] + b) == Load(a)
    ensures |Load(a)| == |a|
    decreases |a|
  {
    if |a| > 0 {
      assert (a + [Failed] + b)[1..] == a[1..] + [Failed] + b;
      LoadStopsAtFailure(a[1..], b);
    } else {
      assert (a + [Failed] + b)[0] == Failed;
    }
  }

  /** Loading is determined by its three properties: the method and the
      function agree on every input. */
  lemma LoadUnique(calls: seq<Attempt>, sites: seq<Site>)
    requires |sites| <= |calls|
    requires forall i :: 0 <= i < |sites| ==> calls[i] == Parsed(sites[i])
    requires |sites| < |calls| ==> calls[|sites|].Failed?
    ensures sites == Load(calls)
  {
    var l := Load(calls);
    assert |l| == |sites|;
    assert forall i :: 0 <= i < |l| ==> Parsed(l[i]) == Parsed(sites[i]);
  }
}

=== FILE: walk.dfy ===
/** The CIGAR coordinate walk of extract_methylation: two counters, the
    reference position and the read offset, advanced run by run, with every
    aligned base emitted as a (reference position, read offset) pair. */
module CigarWalk {
  import opened Cigar

  /** A reference position paired with a read offset: both the walk's two
      counters and each pair the walk tests against the panel. */
  datatype Coord = Coord(refPos: int, readPos: int)

  /** One case of the switch: how a run moves the two counters. */
  function Advance(c: Coord, e: Elem): (c': Coord)
    ensures c'.refPos == c.refPos + (if ConsumesRef(e.op) then e.len else 0)
    ensures c'.readPos == c.readPos + (if ConsumesQuery(e.op) then e.len else 0)
  {
    match e.op
    case Match | Equal | Diff => Coord(c.refPos + e.len, c.readPos + e.len)
    case Ins | SoftClip => Coord(c.refPos, c.readPos + e.len)
    case Del | RefSkip => Coord(c.refPos + e.len, c.readPos)
    case _ => c
  }

  /** Summed lengths of the reference-consuming runs. */
  function RefLen(cigar: seq<Elem>): nat {
    if |cigar| == 0 then 0
    else RefLen(cigar[..|cigar| - 1])
         + (if ConsumesRef(cigar[|cigar| - 1].op) then cigar[|cigar| - 1].len else 0)
  }

  /** Summed lengths of the query-consuming runs. */
  function QueryLen(cigar: seq<Elem>): nat {
    if |cigar| == 0 then 0
    else QueryLen(cigar[..|cigar| - 1])
         + (if ConsumesQuery(cigar[|cigar| - 1].op) then cigar[|cigar| - 1].len else 0)
  }

  /** Summed lengths of the runs that align read and reference bases. */
  function AlignedLen(cigar: seq<Elem>): nat {
    if |cigar| == 0 then 0
    else AlignedLen(cigar[..|cigar| - 1])
         + (if AlignsBases(cigar[|cigar| - 1].op) then cigar[|cigar| - 1].len else 0)
  }

  /** The counters after the whole CIGAR: the start moved by the summed
      reference-consuming lengths, and by the summed query-consuming ones. */
  function Final(s: Coord, cigar: seq<Elem>): (f: Coord)
    ensures f == Coord(s.refPos + RefLen(cigar), s.readPos + QueryLen(cigar))
  {
    if |cigar| == 0 then s
    else Advance(Final(s, cigar[..|cigar| - 1]), cigar[|cigar| - 1])
  }

  /** The pairs a match-type run of n bases tests when it starts at c: one
      per base, both counters moving together. */
  function Run(c: Coord, n: nat): (ps: seq<Coord>)
    ensures |ps| == n
    ensures forall i :: 0 <= i < n ==> ps[i] == Coord(c.refPos + i, c.readPos + i)
  {
    if n == 0 then []
    else Run(c, n - 1) + [Coord(c.refPos + n - 1, c.readPos + n - 1)]
  }

  /** The pairs one run tests when the counters stand at c. */
  function Block(c: Coord, e: Elem): seq<Coord> {
    if AlignsBases(e.op) then Run(c, e.len) else []
  }

  /** Every pair the walk tests, in order, starting from counters s. */
  function Emit(s: Coord, cigar: seq<Elem>): seq<Coord> {
    if |cigar| == 0 then []
    else Emit(s, cigar[..|cigar| - 1]) + Block(Final(s, cigar[..|cigar| - 1]), cigar[|cigar| - 1])
  }

  /** One pair per base of the M, = and X runs. */
  lemma {:induction false} EmitLength(s: Coord, cigar: seq<Elem>)
    ensures |Emit(s, cigar)| == AlignedLen(cigar)
    decreases |cigar|
  {
    if |cigar| > 0 {
      EmitLength(s, cigar[..|cigar| - 1]);
    }
  }

  /** The walk of one read: reference position from the alignment start,
      read offset from 0. */
  function Walk(start: int, cigar: seq<Elem>): (ps: seq<Coord>)
    ensures |ps| == AlignedLen(cigar)
    ensures Increasing(ps)
    ensures forall i :: 0 <= i < |ps| ==>
              && 0 <= ps[i].readPos < QueryLen(cigar)
              && start <= ps[i].refPos < start + RefLen(cigar)
  {
    EmitLength(Coord(start, 0), cigar);
    EmitIncreasing(Coord(start, 0), cigar);
    EmitBounds(Coord(start, 0), cigar);
    Emit(Coord(start, 0), cigar)
  }

  /** The operations that reach the warning, in CIGAR order. */
  function Warnings(cigar: seq<Elem>): (ws: seq<Op>)
    ensures |ws| <= |cigar|
    ensures forall i :: 0 <= i < |ws| ==> !Handled(ws[i])
  {
    if |cigar| == 0 then []
    else Warnings(cigar[..|cigar| - 1])
         + (if Handled(cigar[|cigar| - 1].op) then [] else [cigar[|cigar| - 1].op])
  }

  /** Both coordinates strictly increase along the sequence. */
  predicate Increasing(ps: seq<Coord>) {
    forall i, j :: 0 <= i < j < |ps| ==> ps[i].refPos < ps[j].refPos && ps[i].readPos < ps[j].readPos
  }

  /** Every tested pair lies inside the span the CIGAR covers: reference
      positions in [s.refPos, s.refPos + RefLen), read offsets in
      [s.readPos, s.readPos + QueryLen). */
  lemma {:induction false} EmitBounds(s: Coord, cigar: seq<Elem>)
    ensures forall i :: 0 <= i < |Emit(s, cigar)| ==>
              && s.refPos <= Emit(s, cigar)[i].refPos < s.refPos + RefLen(cigar)
              && s.readPos <= Emit(s, cigar)[i].readPos < s.readPos + QueryLen(cigar)
    decreases |cigar|
  {
    if |cigar| > 0 {
      var n := |cigar| - 1;
      EmitBounds(s, cigar[..n]);
      var prev := Emit(s, cigar[..n]);
      var blk := Block(Final(s, cigar[..n]), cigar[n]);
      var ps: seq<Coord> := prev + blk;
      assert Emit(s, cigar) == ps;
      forall i | 0 <= i < |ps|
        ensures s.refPos <= ps[i].refPos < s.refPos + RefLen(cigar)
        ensures s.readPos <= ps[i].readPos < s.readPos + QueryLen(cigar)
      {
        if i >= |prev| {
          assert ps[i] == blk[i - |prev|];
        } else {
          assert ps[i] == prev[i];
        }
      }
    }
  }

  /** Reference positions and read offsets both strictly increase along the
      walk, so no reference position is tested twice in one read. */
  lemma {:induction false} EmitIncreasing(s: Coord, cigar: seq<Elem>)
    ensures Increasing(Emit(s, cigar))
    decreases |cigar|
  {
    if |cigar| > 0 {
      var n := |cigar| - 1;
      EmitIncreasing(s, cigar[..n]);
      EmitBounds(s, cigar[..n]);
      var f := Final(s, cigar[..n]);
      var prev := Emit(s, cigar[..n]);
      var blk := Block(f, cigar[n]);
      var ps: seq<Coord> := prev + blk;
      assert Emit(s, cigar) == ps;
      forall i, j | 0 <= i < j < |ps|
        ensures ps[i].refPos < ps[j].refPos && ps[i].readPos < ps[j].readPos
      {
        if j >= |prev| {
          assert ps[j] == blk[j - |prev|];
          if i >= |prev| {
            assert ps[i] == blk[i - |prev|];
          } else {
            assert ps[i] == prev[i];
          }
        } else {
          assert ps[i] == prev[i];
          assert ps[j] == prev[j];
        }
      }
    }
  }

  /** The summed lengths split over concatenation. */
  lemma {:induction false} LensAppend(a: seq<Elem>, b: seq<Elem>)
    ensures RefLen(a + b) == RefLen(a) + RefLen(b)
    ensures QueryLen(a + b) == QueryLen(a) + QueryLen(b)
    decreases |b|
  {
    if |b| == 0 {
      assert a + b == a;
    } else {
      var n := |b| - 1;
      assert (a + b)[..|a + b| - 1] == a + b[..n];
      assert (a + b)[|a + b| - 1] == b[n];
      LensAppend(a, b[..n]);
    }
  }

  /** The counters read front to back: the first run moves them, then the
      rest of the CIGAR does. */
  lemma FinalCons(s: Coord, e: Elem, rest: seq<Elem>)
    ensures Final(s, [e] + rest) == Final(Advance(s, e), rest)
  {
    LensAppend([e], rest);
    assert [e][..0] == [];
  }

  /** The walk read front to back, as extract_methylation's loop runs: the first
      run's pairs, then the rest of the walk from the counters that run
      leaves. */
  lemma {:induction false} EmitCons(s: Coord, e: Elem, rest: seq<Elem>)
    ensures Emit(s, [e] + rest) == Block(s, e) + Emit(Advance(s, e), rest)
    decreases |rest|
  {
    if |rest| == 0 {
      assert [e] + rest == [e];
      assert [e][..0] == [];
    } else {
      var n := |rest| - 1;
      var whole := [e] + rest;
      var init := [e] + rest[..n];
      var a := Advance(s, e);
      assert whole[..|whole| - 1] == init;
      assert whole[|whole| - 1] == rest[n];
      EmitCons(s, e, rest[..n]);
      FinalCons(s, e, rest[..n]);
      var b0, x, y := Block(s, e), Emit(a, rest[..n]), Block(Final(a, rest[..n]), rest[n]);
      assert Emit(s, whole) == (b0 + x) + y;
      assert Emit(a, rest) == x + y;
      AppendAssoc(b0, x, y);
    }
  }

  lemma AppendAssoc<T>(a: seq<T>, b: seq<T>, c: seq<T>)
    ensures (a + b) + c == a + (b + c)
  {
  }

  /** A run of any operation other than M, = and X tests no pair and, when
      the switch does not name it, moves neither counter. */
  lemma UnhandledIsNoOp(c: Coord, e: Elem)
    ensures !AlignsBases(e.op) ==> Block(c, e) == []
    ensures !Handled(e.op) || e.op.HardClip? ==> Advance(c, e) == c
  {
  }

  /** Number of runs of the CIGAR that carry op. */
  function CountOp(cigar: seq<Elem>, op: Op): nat {
    if |cigar| == 0 then 0
    else (if cigar[0].op == op then 1 else 0) + CountOp(cigar[1..], op)
  }

  /** Counting the runs that carry op, one more run at a time. */
  lemma {:induction false} CountOpSnoc(cigar: seq<Elem>, e: Elem, op: Op)
    ensures CountOp(cigar + [e], op) == CountOp(cigar, op) + (if e.op == op then 1 else 0)
    decreases |cigar|
  {
    if |cigar| == 0 {
      assert cigar + [e] == [e];
      assert [e][1..] == [];
    } else {
      assert (cigar + [e])[1..] == cigar[1..] + [e];
      CountOpSnoc(cigar[1..], e, op);
    }
  }

  /** The warning is printed once for every run whose operation the switch
      does not name: an unhandled op appears in the warnings exactly as
      many times as runs carry it, and a handled op never does. */
  lemma {:induction false} WarningsCount(cigar: seq<Elem>, op: Op)
    ensures multiset(Warnings(cigar))[op] == if Handled(op) then 0 else CountOp(cigar, op)
    decreases |cigar|
  {
    if |cigar| > 0 {
      var n := |cigar| - 1;
      WarningsCount(cigar[..n], op);
      CountOpSnoc(cigar[..n], cigar[n], op);
      assert cigar[..n] + [cigar[n]] == cigar;
      var w: seq<Op> := if Handled(cigar[n].op) then [] else [cigar[n].op];
      assert multiset(Warnings(cigar)) == multiset(Warnings(cigar[..n])) + multiset(w);
    }
  }

  /** An operation is warned about exactly when the switch does not name it. */
  lemma {:induction false} WarningsExact(cigar: seq<Elem>, op: Op)
    ensures op in Warnings(cigar) <==> !Handled(op) && exists k :: 0 <= k < |cigar| && cigar[k].op == op
    decreases |cigar|
  {
    if |cigar| > 0 {
      var n := |cigar| - 1;
      WarningsExact(cigar[..n], op);
      if exists k :: 0 <= k < |cigar| && cigar[k].op == op {
        var k :| 0 <= k < |cigar| && cigar[k].op == op;
        if k < n {
          assert cigar[..n][k].op == op;
        }
      }
    }
  }

  /** One more run of the CIGAR, as a loop over the runs sees it: its pairs
      follow those of the runs before, it moves the counters by Advance, and
      it adds its warning if the switch does not name it. */
  lemma EmitStep(s: Coord, cigar: seq<Elem>, k: nat)
    requires k < |cigar|
    ensures Emit(s, cigar[..k + 1]) == Emit(s, cigar[..k]) + Block(Final(s, cigar[..k]), cigar[k])
    ensures Final(s, cigar[..k + 1]) == Advance(Final(s, cigar[..k]), cigar[k])
    ensures Warnings(cigar[..k + 1]) == Warnings(cigar[..k]) + (if Handled(cigar[k].op) then [] else [cigar[k].op])
  {
    assert cigar[..k + 1][..k] == cigar[..k];
  }

  /** Start 100 with M2 I3 M2: the read offset jumps by 3 over the
      insertion (from 2 to 5) while reference positions stay contiguous. */
  lemma InsertionExample()
    ensures Walk(100, [Elem(Match, 2), Elem(Ins, 3), Elem(Match, 2)])
         == [Coord(100, 0), Coord(101, 1), Coord(102, 5), Coord(103, 6)]
  {
    var c := [Elem(Match, 2), Elem(Ins, 3), Elem(Match, 2)];
    assert c[..2] == [Elem(Match, 2), Elem(Ins, 3)];
    assert c[..2][..1] == [Elem(Match, 2)];
    assert c[..2][..1][..0] == [];
    var s := Coord(100, 0);
    assert Emit(s, c[..2][..1]) == [Coord(100, 0), Coord(101, 1)];
    assert Emit(s, c[..2]) == [Coord(100, 0), Coord(101, 1)];
    assert Final(s, c[..2]) == Coord(102, 5);
    assert Run(Coord(102, 5), 2) == [Coord(102, 5), Coord(103, 6)];
  }

  /** Start 100 with M2 D3 M2: reference positions jump over the deletion. */
  lemma DeletionExample()
    ensures Walk(100, [Elem(Match, 2), Elem(Del, 3), Elem(Match, 2)])
         == [Coord(100, 0), Coord(101, 1), Coord(105, 2), Coord(106, 3)]
  {
    var c := [Elem(Match, 2), Elem(Del, 3), Elem(Match, 2)];
    assert c[..2] == [Elem(Match, 2), Elem(Del, 3)];
    assert c[..2][..1] == [Elem(Match, 2)];
    assert c[..2][..1][..0] == [];
    var s := Coord(100, 0);
    assert Emit(s, c[..2][..1]) == [Coord(100, 0), Coord(101, 1)];
    assert Emit(s, c[..2]) == [Coord(100, 0), Coord(101, 1)];
    assert Final(s, c[..2]) == Coord(105, 2);
    assert Run(Coord(105, 2), 2) == [Coord(105, 2), Coord(106, 3)];
  }

  /** Start 50 with S3 M2: clipped bases still count as read offsets. */
  lemma SoftClipExample()
    ensures Walk(50, [Elem(SoftClip, 3), Elem(Match, 2)]) == [Coord(50, 3), Coord(51, 4)]
  {
    var c := [Elem(SoftClip, 3), Elem(Match, 2)];
    assert c[..1] == [Elem(SoftClip, 3)];
    assert c[..1][..0] == [];
    assert Emit(Coord(50, 0), c[..1]) == [];
    assert Final(Coord(50, 0), c[..1]) == Coord(50, 3);
    assert Run(Coord(50, 3), 2) == [Coord(50, 3), Coord(51, 4)];
  }
}

=== FILE: wrappers.dfy ===
/** The optional value used for tags a read may lack. */
module Wrappers {

  datatype Option<+T> = None | Some(value: T)
}
